=== FILE: README.md ===
# LRU/TTL cache and operand validator of an arithmetic web service

This project models the core of a small arithmetic HTTP service written in Go:

- **The cache engine** (`internal/cache/cache.go`). It is a least-recently-used cache with a sliding time-to-live. A doubly linked recency list (head = most recently touched) and a map from key to list element are kept in step. Every `Add` and `Get` first runs `checkSizeAndExpiredRecords`, a two-loop sweep: it drops expired entries from the tail side, then trims the tail while the list is longer than `cacheSize`. After that, `Add` inserts the key or moves it to the head, and `Get` looks the key up, refreshes its expiry and moves it to the head.
- **The store facade** (`internal/cache/store.go`). `InMemoryStore` owns one cache with string keys and forwards `StoreRecord` and `GetRecord` to it.
- **The operand validator** (`internal/utils/validators.go`). An operand is valid when it is non-empty and matches, as a whole, the integer pattern or the float pattern. `IsXYValid` reports which of `x` and `y` are not valid, with a message built by `fmt.Errorf`.

Files:

| file | module | contents |
|---|---|---|
| `lru_cache.dfy` | `LruCache` | entries, the cache, `New`, the two sweep loops, `Add`, `Get`, and the loop-level `CheckSizeAndExpiredRecords` method |
| `cache_lemmas.dfy` | `CacheLemmas` | the list/map bijection and its preservation; what `Add` and `Get` do; the size bound; runs of calls; sliding expiry; eviction |
| `store.dfy` | `CacheStore` | the store facade and the scenarios of `internal/cache/store_test.go` |
| `sweep_finding.dfy` | `SweepFinding` | the stale read the sweep allows, and the corrected sweep with its property |
| `validators.dfy` | `Validators` | the two patterns as languages, scanners proved to decide them, the `%s` formatting, and `IsXYValid` |

Modelling choices:

- The recency list is a `seq<Entry>`, head first. The Go map from key to `*list.Element` becomes a `map<K, Entry>` that sends each key to the entry its element holds. `Consistent` states that the two are in bijection.
- Time is an explicit `now: int` in nanoseconds, the unit of `time.Duration`. All clock reads inside one call are taken to be that one instant. An entry is expired when `now` is strictly after its expiry (`time.Now().After(ttl)`).
- A `Cache` that `New` did not make (nil map) is the constructor `Unbuilt`. On it, `Add` does nothing and `Get` misses.
- Keys of type `interface{}` become a type parameter `K` with equality. Values become a type parameter `V`.
- `Get`'s `(value, ok)` is `Lookup`: `Hit(v)` or `Miss`. `IsXYValid`'s `(bool, error)` is `Verdict`: `Valid` or `Invalid(message)`.

Points where the code's behaviour is easy to misread, all modelled as the code does them:

- **One removal per loop.** `list.Remove` clears the removed element's links, so the `element.Prev()` that follows a removal is nil. Each loop of the sweep therefore removes at most one entry: the expiry loop removes the expired entry nearest the tail, and the size loop removes one tail entry. The main model (`ExpirySweep`, `SizeTrim`, `Sweep`, `Add`, `Get`) keeps this behaviour. The stale read it allows is under "## Findings".
- **Size bound.** For a non-negative `cacheSize`, the sweep runs before the insertion, so after `Add` the list may hold `cacheSize + 1` live entries, not at most `cacheSize`. The next `Get` brings it back within `cacheSize`. `AddBound`, `GetBound` and `CacheStore.CacheSizeOne` state this. With a negative `cacheSize`, which `New` keeps, every sweep empties the list: after `Add` it holds only the entry just written, and every `Get` misses (`CacheLemmas.NegativeSizeNeverHits`).
- **Defaults.** `New` replaces only a zero size and a zero time-to-live. Negative values are kept as given.
- **Valid operands.** Every group of the float pattern is optional, so operands such as `.` and `e5` are accepted as valid numbers (`Validators.AcceptedOperands`).

## Model

| member | source | states |
|---|---|---|
| LruCache.New | internal/cache/cache.go:33-47 | a new cache is empty and consistent; a zero size becomes 1000 and a zero time-to-live becomes one minute; every other setting, negative ones included, is kept |
| LruCache.LastExpired | internal/cache/cache.go:93-102 | walking from the tail finds the expired entry nearest the tail, and finds none exactly when no entry is expired |
| LruCache.ExpirySweep | internal/cache/cache.go:93-102 | the expiry loop changes nothing exactly when no entry is expired; otherwise it removes exactly the tailmost expired entry from both the list and the map |
| LruCache.SizeTrim | internal/cache/cache.go:104-111 | the size loop removes an entry exactly when the list is non-empty and longer than `cacheSize`; it removes only the tail entry, from list and map, and keeps the rest in order |
| LruCache.Sweep | internal/cache/cache.go:92-112 | the sweep removes at most two entries and keeps the settings; for a non-negative `cacheSize` it brings a list of at most `cacheSize + 1` entries within `cacheSize` |
| LruCache.CheckSizeAndExpiredRecords | internal/cache/cache.go:92-112 | the two loops, walking a position from the tail and ending after a removal, compute exactly the sweep |
| LruCache.Upsert | internal/cache/cache.go:60-68 | after the sweep, the key's entry sits at the head with the new value and a fresh expiry, the map points the key at it, and the list grows by at most one |
| LruCache.Touch | internal/cache/cache.go:81-87 | the lookup hits exactly when the key is in the map; a miss changes nothing; a hit returns the value of the entry the map holds for the key, and the new head is that entry with its expiry refreshed to `now + recordTTL` |
| LruCache.Add | internal/cache/cache.go:51-69 | on a nil-map cache `Add` does nothing; otherwise the settings are kept, the head is the key's fresh entry with the new value, the map points the key at it, and the list grows by at most one |
| LruCache.Get | internal/cache/cache.go:72-88 | on a nil-map cache `Get` misses; otherwise it hits exactly when the key survives the sweep; a miss leaves the swept cache; a hit returns the value of the swept entry for the key, and the new head is that entry with its expiry refreshed |
| CacheLemmas.WithoutAt | internal/cache/cache.go:61 | with distinct keys, taking the key's entry out of the list is removing it at its one position |
| CacheLemmas.ConsistentSizes | internal/cache/cache.go:17-18 | in a consistent cache the map has exactly as many keys as the list has entries |
| CacheLemmas.ExpirySweepKeepsConsistent | internal/cache/cache.go:96-99 | removing the expired entry from list and map together keeps them in bijection |
| CacheLemmas.SizeTrimKeepsConsistent | internal/cache/cache.go:106-108 | removing the tail from list and map together keeps them in bijection |
| CacheLemmas.SweepKeepsConsistent | internal/cache/cache.go:92-112 | the sweep keeps list and map in bijection |
| CacheLemmas.UpsertKeepsConsistent | internal/cache/cache.go:60-68 | the insertion or update keeps list and map in bijection, and updating a present key keeps the length |
| CacheLemmas.TouchKeepsConsistent | internal/cache/cache.go:81-85 | the lookup keeps list and map in bijection and never changes the length |
| CacheLemmas.AddKeepsConsistent | internal/cache/cache.go:51-69 | `Add` keeps list and map in bijection |
| CacheLemmas.GetKeepsConsistent | internal/cache/cache.go:72-88 | `Get` keeps list and map in bijection |
| CacheLemmas.AddAbsentKey | internal/cache/cache.go:67-68 | `Add` of a key absent after the sweep puts a fresh entry in front of the swept list, and the map gains exactly one key |
| CacheLemmas.UpsertPresentKey | internal/cache/cache.go:60-64 | updating a present key takes its entry out of its one position and puts it, with the new value and a fresh expiry, at the head; the length is unchanged |
| CacheLemmas.AddPresentKey | internal/cache/cache.go:60-64 | `Add` of a key present after the sweep takes its entry out of its one position and puts it, with the new value and a fresh expiry, at the head; the length is unchanged |
| CacheLemmas.TouchPresentKey | internal/cache/cache.go:81-84 | a lookup of a present key returns its value and moves its entry, refreshed, from its position to the head, keeping the length |
| CacheLemmas.GetPresentKey | internal/cache/cache.go:72-85 | `Get` of a key that survives the sweep returns its value and moves its refreshed entry from its position to the head, keeping the length |
| CacheLemmas.AddLeavesOthers | internal/cache/cache.go:51-69 | apart from the written key, `Add` leaves the swept list entry for entry and in order, and the map agrees with the swept map on every other key |
| CacheLemmas.GetLeavesOthers | internal/cache/cache.go:72-88 | apart from the read key, `Get` leaves the swept list entry for entry and in order, and the map agrees with the swept map on every other key |
| CacheLemmas.QuietSweep | internal/cache/cache.go:92-112 | with the list within `cacheSize` and nothing expired, the sweep changes nothing |
| CacheLemmas.AddBound | internal/cache/cache.go:58-68 | for a non-negative `cacheSize`, since the sweep runs before the insertion, a list of at most `cacheSize + 1` entries stays within `cacheSize + 1` after `Add` |
| CacheLemmas.GetBound | internal/cache/cache.go:79-85 | for a consistent cache with a non-negative `cacheSize`, `Get` on a list of at most `cacheSize + 1` entries leaves at most `cacheSize` |
| CacheLemmas.RunKeepsInvariants | internal/cache/cache.go:51-112 | along any sequence of `Add` and `Get` calls the bijection and the settings are kept, the list never exceeds `cacheSize + 1`, and after a final `Get` it is within `cacheSize` |
| CacheLemmas.NewRunKeepsInvariants | internal/cache/cache.go:33-47 | a cache made by `New` with a non-negative size keeps the bijection and the `cacheSize + 1` bound along any sequence of calls |
| CacheLemmas.NegativeSizeSweep | internal/cache/cache.go:92-112 | with a negative `cacheSize`, kept by `New`, the sweep empties a list of at most one entry, and the map with it |
| CacheLemmas.NegativeSizeStep | internal/cache/cache.go:51-88 | with a negative `cacheSize`, `Add` leaves just the entry it wrote and `Get` misses, leaving the emptied cache |
| CacheLemmas.NegativeSizeNeverHits | internal/cache/cache.go:51-112 | with a negative `cacheSize`, along any sequence of calls the list holds at most one entry and every read misses |
| CacheLemmas.NewNegativeSizeNeverHits | internal/cache/cache.go:33-47 | a cache made by `New` with a negative size never hits, whatever calls came before |
| CacheLemmas.TouchKeepsAlive | internal/cache/cache.go:82 | sliding expiry: after a hit, a read no later than `recordTTL` after it hits again with the same value |
| CacheLemmas.OverwriteKeepsOne | internal/cache/cache.go:60-65 | writing a key twice within `recordTTL` leaves one entry for it, at the head, holding the second value; the second write adds no entry |
| CacheLemmas.IdleEntryExpires | internal/cache/cache.go:93-102 | an entry left untouched past its expiry is gone at the next read when it is the expired entry nearest the tail, the one the expiry loop removes |
| CacheLemmas.LeastRecentEvicted | internal/cache/cache.go:104-111 | with the list one over `cacheSize` and nothing expired, the next read misses the least recently used (tail) key |
| CacheStore.NewStore | internal/cache/store.go:29-33 | a new store owns a cache made by `New` with the same settings |
| CacheStore.StoreRecord | internal/cache/store.go:19-21 | storing a record has exactly the effect of `Add` on the owned cache |
| CacheStore.GetRecord | internal/cache/store.go:24-26 | reading a record returns what `Get` returns and keeps what `Get` did to the cache |
| CacheStore.NewStoreSettings | internal/cache/store_test.go:13-16 | a store made with size 1 and one second keeps those settings |
| CacheStore.StoreThreeRecords | internal/cache/store_test.go:22-34 | three distinct keys stored within the time-to-live give lengths 1, 2 and 3, and each key holds its value |
| CacheStore.GetAfterStore | internal/cache/store_test.go:40-45 | a record read back within the time-to-live is found with its value |
| CacheStore.RecordTTL | internal/cache/store_test.go:51-63 | with a 200 ms time-to-live, a read within 200 ms of the write hits; a read more than 200 ms after that read misses |
| CacheStore.CacheSizeOne | internal/cache/store_test.go:69-82 | with size 1, the list holds two entries right after the second write; the next read of the new key hits and evicts the old key, whose read then misses |
| SweepFinding.ExpiredEntryHits | internal/cache/cache.go:93-102 | of two expired entries, the one nearer the head survives the sweep, and `Get` of its key hits |
| SweepFinding.ExpiredEntryHitsExample | internal/cache/cache.go:93-102 | a cache holding two entries that have both expired answers a read of the head key with its stale value |
| SweepFinding.ExpireAll | internal/cache/cache.go:93-102 | the expiry loop continued past each removal keeps exactly the entries that have not expired, in their order, and the map loses exactly the keys of the expired entries |
| SweepFinding.TrimAll | internal/cache/cache.go:104-111 | the size loop continued past each removal keeps the first `cacheSize` entries (all of them when they fit, none for a negative size), and the map loses exactly the keys of the entries cut off |
| SweepFinding.SweepIntended | internal/cache/cache.go:92-112 | the sweep with both loops walking on keeps the first `cacheSize` live entries in their order (all of them when they fit, none for a negative size), none of them expired, and every key it keeps maps to the entry the cache held |
| SweepFinding.GetIntended | internal/cache/cache.go:72-112 | a read over the intended sweep hits exactly when the swept map holds the key, a miss leaves the swept cache, and a hit returns the value the cache held for the key; `IntendedGetNeverStale` adds that the entry had not expired |
| SweepFinding.ExpireAllKeepsConsistent | internal/cache/cache.go:93-102 | the continued expiry loop keeps list and map in bijection |
| SweepFinding.TrimAllKeepsConsistent | internal/cache/cache.go:104-111 | the continued size loop keeps list and map in bijection |
| SweepFinding.IntendedGetNeverStale | internal/cache/cache.go:72-112 | with the continued sweep, a hit returns the value the cache held for the key in an entry that had not expired, and the swept list is within `cacheSize`; conversely, when the live entries fit in `cacheSize`, a read of a key whose entry has not expired hits with its value |
| Validators.MatchesInt | internal/utils/validators.go:9 | a left-to-right scan for an optional sign and then a lone `0` or a digit run without a leading zero; `MatchesIntIsPattern` proves it accepts exactly the whole matches of the integer pattern |
| Validators.MatchesFloat | internal/utils/validators.go:10 | a greedy left-to-right scan for the optional integer, fraction and exponent groups; `MatchesFloatIsPattern` proves it accepts exactly the whole matches of the float pattern |
| Validators.IsIntOrFloat | internal/utils/validators.go:37-39 | the empty operand is refused before either scanner runs; `ValidOperand` gives its meaning in terms of the two patterns |
| Validators.DigitsEndAt | internal/utils/validators.go:10 | the digit run starting at a position ends at the first non-digit after it |
| Validators.SignedDigitsFromIsSignedDigits | internal/utils/validators.go:10 | the scanner's check of a signed digit run to the end of the input decides the pattern's `[\+\-]?[0-9]+` group |
| Validators.FloatScanSound | internal/utils/validators.go:10 | every input the float scanner accepts splits into the pattern's optional integer, fraction and exponent groups |
| Validators.FloatScanComplete | internal/utils/validators.go:10 | every input that splits into the three groups of the float pattern is accepted by the scanner |
| Validators.MatchesFloatIsPattern | internal/utils/validators.go:10 | the float scanner accepts exactly the whole matches of the float pattern |
| Validators.MatchesIntIsPattern | internal/utils/validators.go:9 | the integer scanner accepts exactly the whole matches of the integer pattern: an optional sign, then `0` alone or digits without a leading zero |
| Validators.IntIsFloat | internal/utils/validators.go:9-10 | every whole match of the integer pattern is a whole match of the float pattern |
| Validators.ValidOperand | internal/utils/validators.go:37-39 | an operand is valid exactly when it is non-empty and matches the integer or the float pattern, stated both through the scanners and through the two languages, and equally exactly when it is non-empty and matches the float pattern |
| Validators.RejectedOperands | internal/utils/validators.go:37-39 | the empty operand, `1--` and `1..` are not valid |
| Validators.AcceptedOperands | internal/utils/validators.go:10 | `.`, `e5` and `-12.5E+3` are valid, since every group of the float pattern is optional |
| Validators.InvalidValueSpelledOut | internal/utils/validators.go:12 | the one-operand format `%s value: %s not valid number` is a verb, ` value: `, a verb, and ` not valid number` |
| Validators.InvalidValuesSpelledOut | internal/utils/validators.go:13 | the two-operand format is a verb, ` value: `, a verb, ` not valid number, `, and then the one-operand format |
| Validators.TwoVerbs | internal/utils/validators.go:12-13 | formatting two `%s` verbs substitutes the two arguments in order and copies the literal text around them |
| Validators.InvalidValueText | internal/utils/validators.go:12 | the one-operand format with a name and a value gives `<name> value: <value> not valid number` |
| Validators.InvalidValuesText | internal/utils/validators.go:13 | the two-operand format gives the two one-operand complaints joined by `, ` |
| Validators.IsXYValid | internal/utils/validators.go:22-35 | the verdict is valid exactly when both operands are; otherwise the message names exactly the invalid operands, x before y, joined by `, ` when both are invalid |
| Validators.BadOperandsMessage | cmd/handler/arithmetic_test.go:52-62 | x = `1--` and y = `1..` are refused with `x value: 1-- not valid number, y value: 1.. not valid number` |

## Left out

- The mutex in `Add` and `Get` is left out. Each call is modelled as one atomic step.
- Reads of `time.Now()` become the `now` argument of each call. Inside one call they are taken to be the same instant, although the Go code reads the clock once per entry in the expiry loop.
- The overflow of `time.Time.Add` for huge time-to-live values is not modelled. Expiry instants are unbounded integers.
- The `Store` interface (`internal/cache/store.go:8-11`) is not modelled as a type. `InMemoryStore` is its only implementation, and its two operations are modelled directly.
- Pointer identity of list elements is not modelled. An entry is identified by its key, which the bijection makes unique.
- `regexp` is not modelled as an engine. The two patterns are stated as languages, and a hand-written scanner is proved to decide each.
- `fmt.Errorf` and `fmt.Sprintf` are modelled for the `%s` verb with string arguments only. That is the only verb the two formats use. The error value is reduced to its message.
- The arithmetic operations, string conversion, HTTP handlers, router, middleware and `main` are not part of this model.
- Go strings are byte sequences; the model's `string` is a sequence of characters. Operands that are not valid UTF-8, and the bytes such operands copy into the messages, have no counterpart here.
- The zero `InMemoryStore{}` holds a nil `*Cache`, and `StoreRecord` and `GetRecord` on it panic with a nil dereference. The model's `InMemoryStore` always holds a `Cache`, so that case is not modelled. A `Cache` whose map is nil is modelled, as `Unbuilt`.

## Findings

| source | as written | input that shows it | evidently intended | confidence | as-written member | corrected member |
|---|---|---|---|---|---|---|
| internal/cache/cache.go:93-111 | each sweep loop takes `element.Prev()` after `c.ll.Remove(element)`; `Remove` has cleared the element's links, so `Prev()` is nil and the loop stops after one removal | a cache of size 10 holding `a` (expiry 5, value 1) at the head and `b` (expiry 3, value 2) at the tail, read at instant 10: the sweep removes only `b`, and `Get("a")` returns `1, true` although `a` has expired | the loops walk on past each removal (take `Prev` before `Remove`), so every expired entry goes and the list is trimmed to `cacheSize`; a read never returns an expired entry | not executed | SweepFinding.ExpiredEntryHits | SweepFinding.IntendedGetNeverStale |

The main operations (`LruCache.Add`, `LruCache.Get` and the store on top of them) keep the sweep as written, because that is what the service runs. The corrected sweep is `SweepFinding.ExpireAll` followed by `SweepFinding.TrimAll`, and `SweepFinding.GetIntended` is `Get` over it. `SweepFinding.ExpiredEntryHitsExample` is the concrete input of the table.

=== FILE: cache_lemmas.dfy ===
/**
 * Properties of the cache of internal/cache/cache.go: the map/list
 * bijection is kept by every operation, `Add` and `Get` touch exactly one
 * key, the size bound, the sliding expiry and least-recently-used eviction.
 */
module CacheLemmas {
  import opened LruCache

  /* ---------- Recency lists ---------- */

  /** A position holding key `k` in a list that contains `k`. */
  ghost function PositionOf<K, V>(ll: seq<Entry<K, V>>, k: K): (p: nat)
    requires k in KeySet(ll)
    ensures p < |ll| && ll[p].key == k
  {
    var p :| 0 <= p < |ll| && ll[p].key == k; p
  }

  lemma {:induction false} WithoutAbsent<K, V>(ll: seq<Entry<K, V>>, k: K)
    requires forall i :: 0 <= i < |ll| ==> ll[i].key != k
    ensures Without(ll, k) == ll
    decreases |ll|
  {
    if |ll| > 0 {
      WithoutAbsent(ll[1..], k);
      assert ll == [ll[0]] + ll[1..];
    }
  }

  /** With distinct keys, filtering a key out removes just its one position. */
  lemma {:induction false} WithoutAt<K, V>(ll: seq<Entry<K, V>>, p: nat, k: K)
    requires DistinctKeys(ll) && p < |ll| && ll[p].key == k
    ensures Without(ll, k) == RemoveAt(ll, p)
    decreases |ll|
  {
    if p == 0 {
      WithoutAbsent(ll[1..], k);
      assert RemoveAt(ll, 0) == ll[1..];
    } else {
      WithoutAt(ll[1..], p - 1, k);
      assert RemoveAt(ll, p) == [ll[0]] + RemoveAt(ll[1..], p - 1);
    }
  }

  lemma {:induction false} WithoutIdempotent<K, V>(ll: seq<Entry<K, V>>, k: K)
    ensures Without(Without(ll, k), k) == Without(ll, k)
    decreases |ll|
  {
    if |ll| > 0 {
      WithoutIdempotent(ll[1..], k);
      if ll[0].key != k {
        var w := [ll[0]] + Without(ll[1..], k);
        assert w[0] == ll[0] && w[1..] == Without(ll[1..], k);
      }
    }
  }

  /** Filtering `k` out of a list headed by an entry for `k` ignores that head. */
  lemma WithoutHead<K, V>(e: Entry<K, V>, ll: seq<Entry<K, V>>)
    ensures Without([e] + ll, e.key) == Without(ll, e.key)
  {
    assert ([e] + ll)[1..] == ll;
  }

  lemma {:induction false} KeySetSize<K, V>(ll: seq<Entry<K, V>>)
    requires DistinctKeys(ll)
    ensures |KeySet(ll)| == |ll|
    decreases |ll|
  {
    if |ll| > 0 {
      KeySetSize(ll[1..]);
      assert KeySet(ll) == {ll[0].key} + KeySet(ll[1..]) by {
        forall k | k in KeySet(ll) ensures k in {ll[0].key} + KeySet(ll[1..]) {
          var i :| 0 <= i < |ll| && ll[i].key == k;
          if i > 0 { assert ll[1..][i - 1].key == k; }
        }
        forall k | k in KeySet(ll[1..]) ensures k in KeySet(ll) {
          var i :| 0 <= i < |ll[1..]| && ll[1..][i].key == k;
          assert ll[i + 1].key == k;
        }
      }
      forall i | 0 <= i < |ll[1..]| ensures ll[1..][i].key != ll[0].key {
        assert ll[1..][i] == ll[i + 1];
      }
    }
  }

  /** The bijection makes the map exactly as large as the list. */
  lemma ConsistentSizes<K, V>(c: Cache<K, V>)
    requires Consistent(c)
    ensures |c.index| == |c.ll|
  {
    KeySetSize(c.ll);
    assert |c.index| == |c.index.Keys|;
  }

  /* ---------- The bijection is kept ---------- */

  lemma RemoveKeepsConsistent<K, V>(c: Cache<K, V>, i: nat)
    requires Consistent(c) && i < |c.ll|
    ensures Consistent(c.(ll := RemoveAt(c.ll, i), index := c.index - {c.ll[i].key}))
  {
    var ll := RemoveAt(c.ll, i);
    var k := c.ll[i].key;
    forall x | x in KeySet(ll) ensures x in KeySet(c.ll) - {k} {
      var j :| 0 <= j < |ll| && ll[j].key == x;
      if j < i { assert c.ll[j].key == x; } else { assert c.ll[j + 1].key == x; }
    }
    forall x | x in KeySet(c.ll) - {k} ensures x in KeySet(ll) {
      var j :| 0 <= j < |c.ll| && c.ll[j].key == x;
      if j < i { assert ll[j].key == x; } else { assert ll[j - 1].key == x; }
    }
  }

  lemma PushFrontKeepsConsistent<K, V>(c: Cache<K, V>, e: Entry<K, V>)
    requires Consistent(c) && e.key !in c.index
    ensures Consistent(c.(ll := [e] + c.ll, index := c.index[e.key := e]))
  {
    var ll := [e] + c.ll;
    forall x | x in KeySet(ll) ensures x in KeySet(c.ll) + {e.key} {
      var j :| 0 <= j < |ll| && ll[j].key == x;
      if j > 0 { assert c.ll[j - 1].key == x; }
    }
    forall x | x in KeySet(c.ll) + {e.key} ensures x in KeySet(ll) {
      if x != e.key {
        var j :| 0 <= j < |c.ll| && c.ll[j].key == x;
        assert ll[j + 1].key == x;
      } else {
        assert ll[0].key == x;
      }
    }
  }

  /** Moving the entry for `e.key` to the head, as a removal then a push. */
  lemma MoveToFrontKeepsConsistent<K, V>(c: Cache<K, V>, e: Entry<K, V>)
    requires Consistent(c) && e.key in c.index
    ensures Consistent(c.(ll := [e] + Without(c.ll, e.key), index := c.index[e.key := e]))
    ensures |Without(c.ll, e.key)| == |c.ll| - 1
  {
    var p := PositionOf(c.ll, e.key);
    WithoutAt(c.ll, p, e.key);
    RemoveKeepsConsistent(c, p);
    var d := c.(ll := RemoveAt(c.ll, p), index := c.index - {e.key});
    PushFrontKeepsConsistent(d, e);
    assert d.index[e.key := e] == c.index[e.key := e];
    assert d.(ll := [e] + d.ll, index := d.index[e.key := e])
        == c.(ll := [e] + Without(c.ll, e.key), index := c.index[e.key := e]);
  }

  lemma ExpirySweepKeepsConsistent<K, V>(c: Cache<K, V>, now: int)
    requires Consistent(c)
    ensures Consistent(ExpirySweep(c, now))
  {
    var r := ExpirySweep(c, now);
    if r != c {
      var i :| TailmostExpired(c.ll, i, now) && r.ll == RemoveAt(c.ll, i)
               && r.index == c.index - {c.ll[i].key};
      RemoveKeepsConsistent(c, i);
    }
  }

  lemma SizeTrimKeepsConsistent<K, V>(c: Cache<K, V>)
    requires Consistent(c)
    ensures Consistent(SizeTrim(c))
  {
    if |SizeTrim(c).ll| < |c.ll| {
      RemoveKeepsConsistent(c, |c.ll| - 1);
      assert RemoveAt(c.ll, |c.ll| - 1) == c.ll[..|c.ll| - 1];
    }
  }

  lemma SweepKeepsConsistent<K, V>(c: Cache<K, V>, now: int)
    requires Consistent(c)
    ensures Consistent(Sweep(c, now))
  {
    ExpirySweepKeepsConsistent(c, now);
    SizeTrimKeepsConsistent(ExpirySweep(c, now));
  }

  lemma UpsertKeepsConsistent<K, V>(s: Cache<K, V>, key: K, value: V, now: int)
    requires Consistent(s)
    ensures Consistent(Upsert(s, key, value, now))
    ensures key in s.index ==> |Upsert(s, key, value, now).ll| == |s.ll|
  {
    var e := Entry(key, now + s.recordTTL, value);
    if key in s.index {
      MoveToFrontKeepsConsistent(s, e);
    } else {
      PushFrontKeepsConsistent(s, e);
    }
  }

  lemma TouchKeepsConsistent<K, V>(s: Cache<K, V>, key: K, now: int)
    requires Consistent(s)
    ensures Consistent(Touch(s, key, now).0)
    ensures |Touch(s, key, now).0.ll| == |s.ll|
  {
    if key in s.index {
      var e := s.index[key].(expiry := now + s.recordTTL);
      assert e.key == key;
      MoveToFrontKeepsConsistent(s, e);
    }
  }

  lemma AddKeepsConsistent<K, V>(c: Cache<K, V>, key: K, value: V, now: int)
    requires Consistent(c)
    ensures Consistent(Add(c, key, value, now))
  {
    SweepKeepsConsistent(c, now);
    UpsertKeepsConsistent(Sweep(c, now), key, value, now);
  }

  lemma GetKeepsConsistent<K, V>(c: Cache<K, V>, key: K, now: int)
    requires Consistent(c)
    ensures Consistent(Get(c, key, now).0)
  {
    SweepKeepsConsistent(c, now);
    TouchKeepsConsistent(Sweep(c, now), key, now);
  }

  /* ---------- What Add and Get do ---------- */

  /** `Add` of an absent key pushes a fresh entry in front of the swept list. */
  lemma AddAbsentKey<K, V>(c: Cache<K, V>, key: K, value: V, now: int)
    requires Consistent(c) && key !in Sweep(c, now).index
    ensures Add(c, key, value, now).ll == [Entry(key, now + c.recordTTL, value)] + Sweep(c, now).ll
    ensures |Add(c, key, value, now).index| == |Sweep(c, now).index| + 1
  {
    AddKeepsConsistent(c, key, value, now);
    SweepKeepsConsistent(c, now);
    ConsistentSizes(Add(c, key, value, now));
    ConsistentSizes(Sweep(c, now));
  }

  /** `Upsert` of a present key moves its entry, with the new value and a fresh expiry, to the head. */
  lemma UpsertPresentKey<K, V>(s: Cache<K, V>, key: K, value: V, now: int)
    requires Consistent(s) && key in s.index
    ensures var r := Upsert(s, key, value, now);
            && |r.ll| == |s.ll|
            && exists p :: 0 <= p < |s.ll| && s.ll[p].key == key
                           && r.ll == [Entry(key, now + s.recordTTL, value)] + RemoveAt(s.ll, p)
  {
    UpsertKeepsConsistent(s, key, value, now);
    var p := PositionOf(s.ll, key);
    WithoutAt(s.ll, p, key);
    assert Upsert(s, key, value, now).ll == [Entry(key, now + s.recordTTL, value)] + Without(s.ll, key);
  }

  /**
   * `Add` of a present key takes its entry out of its position and puts it,
   * with the new value and a fresh expiry, at the head; the count is unchanged.
   */
  lemma AddPresentKey<K, V>(c: Cache<K, V>, key: K, value: V, now: int)
    requires Consistent(c) && key in Sweep(c, now).index
    ensures var s, r := Sweep(c, now), Add(c, key, value, now);
            && |r.ll| == |s.ll|
            && exists p :: 0 <= p < |s.ll| && s.ll[p].key == key
                           && r.ll == [Entry(key, now + c.recordTTL, value)] + RemoveAt(s.ll, p)
  {
    SweepKeepsConsistent(c, now);
    UpsertPresentKey(Sweep(c, now), key, value, now);
  }

  /** `Touch` of a present key moves its entry, with a fresh expiry, to the head. */
  lemma TouchPresentKey<K, V>(s: Cache<K, V>, key: K, now: int)
    requires Consistent(s) && key in s.index
    ensures var r := Touch(s, key, now);
            && r.1 == Hit(s.index[key].value)
            && |r.0.ll| == |s.ll|
            && exists p :: 0 <= p < |s.ll| && s.ll[p] == s.index[key]
                           && r.0.ll == [s.ll[p].(expiry := now + s.recordTTL)] + RemoveAt(s.ll, p)
  {
    TouchKeepsConsistent(s, key, now);
    var p := PositionOf(s.ll, key);
    WithoutAt(s.ll, p, key);
    assert s.ll[p] == s.index[key];
  }

  /**
   * `Get` of a key that survived the sweep returns its value, and moves its
   * entry, with a fresh expiry and nothing else changed, to the head.
   */
  lemma GetPresentKey<K, V>(c: Cache<K, V>, key: K, now: int)
    requires Consistent(c) && key in Sweep(c, now).index
    ensures var s, r := Sweep(c, now), Get(c, key, now);
            && r.1 == Hit(s.index[key].value)
            && |r.0.ll| == |s.ll|
            && exists p :: 0 <= p < |s.ll| && s.ll[p] == s.index[key]
                           && r.0.ll == [s.ll[p].(expiry := now + c.recordTTL)] + RemoveAt(s.ll, p)
  {
    SweepKeepsConsistent(c, now);
    TouchPresentKey(Sweep(c, now), key, now);
  }

  /**
   * Nothing else changes in `Add`: leaving the touched key aside, the list
   * is the swept list, entry for entry and in the same order, and the map
   * agrees with the swept map.
   */
  lemma AddLeavesOthers<K, V>(c: Cache<K, V>, key: K, value: V, now: int)
    requires c.Built?
    ensures var s, r := Sweep(c, now), Add(c, key, value, now);
            && Without(r.ll, key) == Without(s.ll, key)
            && (forall k :: k in r.index && k != key ==> k in s.index && r.index[k] == s.index[k])
            && (forall k :: k in s.index ==> k in r.index)
  {
    var s := Sweep(c, now);
    var e := Entry(key, now + s.recordTTL, value);
    WithoutHead(e, s.ll);
    if key in s.index {
      WithoutHead(e, Without(s.ll, key));
      WithoutIdempotent(s.ll, key);
    }
  }

  /** Nothing else changes in `Get`, in the same sense as for `Add`. */
  lemma GetLeavesOthers<K, V>(c: Cache<K, V>, key: K, now: int)
    requires Consistent(c)
    ensures var s, r := Sweep(c, now), Get(c, key, now).0;
            && Without(r.ll, key) == Without(s.ll, key)
            && (forall k :: k in r.index && k != key ==> k in s.index && r.index[k] == s.index[k])
            && (forall k :: k in s.index ==> k in r.index)
  {
    var s := Sweep(c, now);
    SweepKeepsConsistent(c, now);
    if key in s.index {
      var e := s.index[key].(expiry := now + s.recordTTL);
      assert e.key == key;
      WithoutHead(e, Without(s.ll, key));
      WithoutIdempotent(s.ll, key);
    }
  }

  /** A sweep of a cache within its size with nothing expired changes nothing. */
  lemma QuietSweep<K, V>(c: Cache<K, V>, now: int)
    requires c.Built? && |c.ll| <= c.cacheSize
    requires forall j :: 0 <= j < |c.ll| ==> !Expired(c.ll[j], now)
    ensures Sweep(c, now) == c
  {
    assert ExpirySweep(c, now) == c;
  }

  /* ---------- The size bound ---------- */

  /**
   * The sweep runs before the insertion, so the bound after `Add` is one
   * more than `cacheSize`; the next sweep brings the list back within it.
   */
  lemma AddBound<K, V>(c: Cache<K, V>, key: K, value: V, now: int)
    requires c.Built? && 0 <= c.cacheSize && |c.ll| <= c.cacheSize + 1
    ensures |Add(c, key, value, now).ll| <= c.cacheSize + 1
  {
  }

  lemma GetBound<K, V>(c: Cache<K, V>, key: K, now: int)
    requires Consistent(c) && 0 <= c.cacheSize && |c.ll| <= c.cacheSize + 1
    ensures |Get(c, key, now).0.ll| <= c.cacheSize
  {
    var s := Sweep(c, now);
    SweepKeepsConsistent(c, now);
    if key in s.index {
      MoveToFrontKeepsConsistent(s, s.index[key].(expiry := now + s.recordTTL));
    }
  }

  /** A call on the cache, each with the instant it happens at. */
  datatype Call<K, V> = AddCall(key: K, value: V, at: int) | GetCall(key: K, at: int)

  function Apply<K(==), V>(c: Cache<K, V>, call: Call<K, V>): Cache<K, V> {
    match call
    case AddCall(k, v, t) => Add(c, k, v, t)
    case GetCall(k, t) => Get(c, k, t).0
  }

  function Run<K(==), V>(c: Cache<K, V>, calls: seq<Call<K, V>>): Cache<K, V>
    decreases |calls|
  {
    if |calls| == 0 then c else Run(Apply(c, calls[0]), calls[1..])
  }

  /**
   * Along any sequence of calls the bijection holds, the list never holds
   * more than `cacheSize` + 1 entries, and after a `Get` at most `cacheSize`.
   */
  lemma {:induction false} RunKeepsInvariants<K, V>(c: Cache<K, V>, calls: seq<Call<K, V>>)
    requires Consistent(c) && 0 <= c.cacheSize && |c.ll| <= c.cacheSize + 1
    ensures var r := Run(c, calls);
            && Consistent(r) && r.cacheSize == c.cacheSize && r.recordTTL == c.recordTTL
            && |r.ll| <= c.cacheSize + 1
            && (0 < |calls| && calls[|calls| - 1].GetCall? ==> |r.ll| <= c.cacheSize)
    decreases |calls|
  {
    if |calls| > 0 {
      var d := Apply(c, calls[0]);
      match calls[0] {
        case AddCall(k, v, t) =>
          AddKeepsConsistent(c, k, v, t);
          AddBound(c, k, v, t);
        case GetCall(k, t) =>
          GetKeepsConsistent(c, k, t);
          GetBound(c, k, t);
      }
      RunKeepsInvariants(d, calls[1..]);
      if |calls| == 1 {
        assert calls[1..] == [];
      } else {
        assert calls[1..][|calls[1..]| - 1] == calls[|calls| - 1];
      }
    }
  }

  /** A cache made by `New` with a non-negative size keeps the invariants forever. */
  lemma NewRunKeepsInvariants<K, V>(cacheSize: int, recordTTL: int, calls: seq<Call<K, V>>)
    requires 0 <= cacheSize
    ensures var c, r := New<K, V>(cacheSize, recordTTL), Run(New<K, V>(cacheSize, recordTTL), calls);
            && Consistent(r) && 1 <= c.cacheSize && |r.ll| <= c.cacheSize + 1
  {
    RunKeepsInvariants(New<K, V>(cacheSize, recordTTL), calls);
  }

  /**
   * A negative `cacheSize`, which `New` keeps, empties a list of at most one
   * entry at every sweep.
   */
  lemma NegativeSizeSweep<K, V>(c: Cache<K, V>, now: int)
    requires Consistent(c) && c.cacheSize < 0 && |c.ll| <= 1
    ensures Sweep(c, now).ll == [] && Sweep(c, now).index == map[]
  {
    SweepKeepsConsistent(c, now);
    assert KeySet(Sweep(c, now).ll) == {};
  }

  /** With a negative size, `Add` leaves just the entry it wrote, and `Get` always misses. */
  lemma NegativeSizeStep<K, V>(c: Cache<K, V>, key: K, value: V, now: int)
    requires Consistent(c) && c.cacheSize < 0 && |c.ll| <= 1
    ensures Add(c, key, value, now).ll == [Entry(key, now + c.recordTTL, value)]
    ensures Get(c, key, now) == (Sweep(c, now), Miss)
  {
    NegativeSizeSweep(c, now);
  }

  /** After any calls on a cache made with a negative size, a read misses. */
  lemma {:induction false} NegativeSizeNeverHits<K, V>(c: Cache<K, V>, calls: seq<Call<K, V>>, key: K, now: int)
    requires Consistent(c) && c.cacheSize < 0 && |c.ll| <= 1
    ensures var r := Run(c, calls);
            && Consistent(r) && r.cacheSize == c.cacheSize && |r.ll| <= 1
            && Get(r, key, now).1 == Miss
    decreases |calls|
  {
    if |calls| > 0 {
      match calls[0] {
        case AddCall(k, v, t) =>
          NegativeSizeStep(c, k, v, t);
          AddKeepsConsistent(c, k, v, t);
        case GetCall(k, t) =>
          NegativeSizeSweep(c, t);
          GetKeepsConsistent(c, k, t);
      }
      NegativeSizeNeverHits(Apply(c, calls[0]), calls[1..], key, now);
    } else {
      NegativeSizeSweep(c, now);
    }
  }

  /** A cache made by `New` with a negative size never hits, whatever calls came before. */
  lemma NewNegativeSizeNeverHits<K, V>(cacheSize: int, recordTTL: int, calls: seq<Call<K, V>>, key: K, now: int)
    requires cacheSize < 0
    ensures var r := Run(New<K, V>(cacheSize, recordTTL), calls);
            Consistent(r) && |r.ll| <= 1 && Get(r, key, now).1 == Miss
  {
    NegativeSizeNeverHits(New<K, V>(cacheSize, recordTTL), calls, key, now);
  }

  /* ---------- Sliding expiry and eviction ---------- */

  /**
   * A read that hits refreshes the expiry: a second read no later than
   * `recordTTL` after it hits again with the same value.
   */
  lemma TouchKeepsAlive<K, V>(c: Cache<K, V>, key: K, t: int, t2: int)
    requires Consistent(c) && 0 <= c.cacheSize && |c.ll| <= c.cacheSize + 1
    requires Get(c, key, t).1.Hit?
    requires t2 <= t + c.recordTTL
    ensures Get(Get(c, key, t).0, key, t2).1 == Get(c, key, t).1
  {
    var c1 := Get(c, key, t).0;
    GetKeepsConsistent(c, key, t);
    GetBound(c, key, t);
    assert c1.ll[0].key == key;
    var x := ExpirySweep(c1, t2);
    if x != c1 {
      var i :| TailmostExpired(c1.ll, i, t2) && x.ll == RemoveAt(c1.ll, i)
               && x.index == c1.index - {c1.ll[i].key};
      assert i != 0;
      assert c1.ll[i].key != key;
    }
    assert key in x.index && x.index[key] == c1.index[key];
  }

  /**
   * Writing a key twice, the second time within `recordTTL` of the first,
   * leaves one entry for it, at the head, holding the second value; the
   * second write adds no entry, so the list is the swept list's length.
   */
  lemma OverwriteKeepsOne<K, V>(c: Cache<K, V>, key: K, v1: V, v2: V, t1: int, t2: int)
    requires Consistent(c) && 1 <= c.cacheSize && |c.ll| <= c.cacheSize + 1
    requires t1 <= t2 <= t1 + c.recordTTL
    ensures var c1 := Add(c, key, v1, t1);
            var r := Add(c1, key, v2, t2);
            && key in r.index && r.index[key].value == v2
            && r.ll[0].key == key && (forall i :: 1 <= i < |r.ll| ==> r.ll[i].key != key)
            && |r.ll| == |Sweep(c1, t2).ll| <= |c1.ll|
  {
    var c1 := Add(c, key, v1, t1);
    AddKeepsConsistent(c, key, v1, t1);
    var x := ExpirySweep(c1, t2);
    if x != c1 {
      var i :| TailmostExpired(c1.ll, i, t2) && x.ll == RemoveAt(c1.ll, i)
               && x.index == c1.index - {c1.ll[i].key};
      assert i != 0;
      assert c1.ll[i].key != key;
    }
    assert key in x.index;
    ExpirySweepKeepsConsistent(c1, t2);
    assert x.ll[0].key == key;
    assert key in Sweep(c1, t2).index;
    AddPresentKey(c1, key, v2, t2);
    AddKeepsConsistent(c1, key, v2, t2);
  }

  /**
   * An entry left untouched past its expiry is gone at the next read when it
   * is the expired entry nearest the tail, the one the sweep removes.
   */
  lemma IdleEntryExpires<K, V>(c: Cache<K, V>, p: nat, now: int)
    requires Consistent(c) && TailmostExpired(c.ll, p, now)
    ensures Get(c, c.ll[p].key, now).1 == Miss
  {
    var x := ExpirySweep(c, now);
    var i :| TailmostExpired(c.ll, i, now) && x.ll == RemoveAt(c.ll, i)
             && x.index == c.index - {c.ll[i].key};
    assert i == p;
  }

  /**
   * Least-recently-used eviction: with the list one over `cacheSize` and
   * nothing expired, the next read misses the tail entry.
   */
  lemma LeastRecentEvicted<K, V>(c: Cache<K, V>, now: int)
    requires Consistent(c) && |c.ll| == c.cacheSize + 1 && 0 <= c.cacheSize
    requires forall j :: 0 <= j < |c.ll| ==> !Expired(c.ll[j], now)
    ensures Get(c, c.ll[|c.ll| - 1].key, now).1 == Miss
  {
    assert ExpirySweep(c, now) == c;
  }
}

=== FILE: lru_cache.dfy ===
/**
 * The least-recently-used cache with sliding expiry of internal/cache/cache.go.
 *
 * The Go cache keeps a doubly linked recency list (head = most recently
 * touched) and a map from each key to its list element. Here the list is a
 * sequence of entries, head first, and the map sends each key to the entry
 * its element holds. Time is an explicit `now` argument in nanoseconds, the
 * unit of Go's time.Duration; every clock read inside one call is taken to be
 * that one instant. The mutex is left out: every call is atomic.
 */
module LruCache {

  datatype Option<T> = None | Some(value: T)

  /** Nanoseconds per millisecond, second and minute. */
  const Millisecond: int := 1_000_000
  const Second: int := 1000 * Millisecond
  const Minute: int := 60 * Second

  /** What `New` puts in place of a zero size or a zero time-to-live. */
  const DefaultCacheSize: int := 1000
  const DefaultRecordTTL: int := Minute

  /** One list element: its key, the absolute instant it expires at, and its value. */
  datatype Entry<K, V> = Entry(key: K, expiry: int, value: V)

  /**
   * A cache. `Unbuilt` is a Cache that `New` did not make: its map is nil,
   * and every operation on it returns at once.
   */
  datatype Cache<K, V> =
    | Unbuilt
    | Built(cacheSize: int, recordTTL: int, ll: seq<Entry<K, V>>, index: map<K, Entry<K, V>>)

  /** What `Get` returns: `Hit(v)` stands for (v, true), `Miss` for (nil, false). */
  datatype Lookup<V> = Hit(value: V) | Miss

  /** An entry is expired once `now` is strictly after its expiry instant. */
  predicate Expired<K, V>(e: Entry<K, V>, now: int) {
    now > e.expiry
  }

  /** The keys that occur in a recency list. */
  function KeySet<K, V>(ll: seq<Entry<K, V>>): set<K> {
    set i | 0 <= i < |ll| :: ll[i].key
  }

  ghost predicate DistinctKeys<K, V>(ll: seq<Entry<K, V>>) {
    forall i, j :: 0 <= i < j < |ll| ==> ll[i].key != ll[j].key
  }

  /**
   * The map and the recency list are in bijection: the list holds each key
   * at most once, the map's keys are exactly the list's keys, and the map
   * sends every key to the entry the list holds for it.
   */
  ghost predicate Consistent<K, V>(c: Cache<K, V>) {
    && c.Built?
    && DistinctKeys(c.ll)
    && c.index.Keys == KeySet(c.ll)
    && forall i :: 0 <= i < |c.ll| ==> c.ll[i].key in c.index && c.index[c.ll[i].key] == c.ll[i]
  }

  /** `i` is the position of the expired entry nearest the tail. */
  ghost predicate TailmostExpired<K, V>(ll: seq<Entry<K, V>>, i: int, now: int) {
    && 0 <= i < |ll|
    && Expired(ll[i], now)
    && forall j :: i < j < |ll| ==> !Expired(ll[j], now)
  }

  function RemoveAt<T>(s: seq<T>, i: nat): (r: seq<T>)
    requires i < |s|
    ensures |r| == |s| - 1
    ensures forall j :: 0 <= j < i ==> r[j] == s[j]
    ensures forall j :: i <= j < |r| ==> r[j] == s[j + 1]
  {
    s[..i] + s[i + 1..]
  }

  /** The list with every entry for `k` taken out, the others in their order. */
  function Without<K(==), V>(ll: seq<Entry<K, V>>, k: K): (r: seq<Entry<K, V>>)
    ensures forall i :: 0 <= i < |r| ==> r[i].key != k
    ensures |r| <= |ll|
  {
    if |ll| == 0 then []
    else if ll[0].key == k then Without(ll[1..], k)
    else [ll[0]] + Without(ll[1..], k)
  }

  /**
   * `New`: only a zero size becomes 1000 and only a zero time-to-live
   * becomes one minute; every other value, negative ones included, is kept.
   */
  function New<K, V>(cacheSize: int, recordTTL: int): (c: Cache<K, V>)
    ensures Consistent(c) && c.ll == []
    ensures cacheSize != 0 ==> c.cacheSize == cacheSize
    ensures cacheSize == 0 ==> c.cacheSize == DefaultCacheSize
    ensures recordTTL != 0 ==> c.recordTTL == recordTTL
    ensures recordTTL == 0 ==> c.recordTTL == DefaultRecordTTL
  {
    Built(if cacheSize == 0 then DefaultCacheSize else cacheSize,
          if recordTTL == 0 then DefaultRecordTTL else recordTTL,
          [], map[])
  }

  /**
   * The position of the expired entry nearest the tail, found by walking
   * from the tail towards the head.
   */
  function LastExpired<K, V>(ll: seq<Entry<K, V>>, now: int): (r: Option<nat>)
    ensures r.Some? ==> TailmostExpired(ll, r.value, now)
    ensures r.None? <==> forall j :: 0 <= j < |ll| ==> !Expired(ll[j], now)
    decreases |ll|
  {
    if |ll| == 0 then None
    else if Expired(ll[|ll| - 1], now) then Some(|ll| - 1)
    else LastExpired(ll[..|ll| - 1], now)
  }

  /**
   * The first loop of the sweep. `Remove` detaches the element, so the
   * `Prev` that follows it yields nil and the loop stops: at most one entry,
   * the expired one nearest the tail, is removed from the list and the map.
   */
  function ExpirySweep<K(==), V>(c: Cache<K, V>, now: int): (r: Cache<K, V>)
    requires c.Built?
    ensures r.Built? && r.cacheSize == c.cacheSize && r.recordTTL == c.recordTTL
    ensures r == c <==> forall j :: 0 <= j < |c.ll| ==> !Expired(c.ll[j], now)
    ensures r != c ==> exists i :: TailmostExpired(c.ll, i, now)
                                   && r.ll == RemoveAt(c.ll, i)
                                   && r.index == c.index - {c.ll[i].key}
  {
    match LastExpired(c.ll, now)
    case None => c
    case Some(i) => c.(ll := RemoveAt(c.ll, i), index := c.index - {c.ll[i].key})
  }

  /**
   * The second loop of the sweep: while the list is longer than `cacheSize`
   * the tail is removed, and, as in the first loop, the loop stops after one
   * removal.
   */
  function SizeTrim<K(==), V>(c: Cache<K, V>): (r: Cache<K, V>)
    requires c.Built?
    ensures r.Built? && r.cacheSize == c.cacheSize && r.recordTTL == c.recordTTL
    ensures |c.ll| - 1 <= |r.ll| <= |c.ll| && r.ll == c.ll[..|r.ll|]
    ensures |r.ll| < |c.ll| <==> 0 < |c.ll| && c.cacheSize < |c.ll|
    ensures |r.ll| == |c.ll| ==> r == c
    ensures |r.ll| < |c.ll| ==> r.index == c.index - {c.ll[|c.ll| - 1].key}
  {
    if 0 < |c.ll| && c.cacheSize < |c.ll| then
      c.(ll := c.ll[..|c.ll| - 1], index := c.index - {c.ll[|c.ll| - 1].key})
    else c
  }

  /** `checkSizeAndExpiredRecords`: the expiry loop, then the size loop. */
  function Sweep<K(==), V>(c: Cache<K, V>, now: int): (r: Cache<K, V>)
    requires c.Built?
    ensures r.Built? && r.cacheSize == c.cacheSize && r.recordTTL == c.recordTTL
    ensures |c.ll| - 2 <= |r.ll| <= |c.ll|
    ensures 0 <= c.cacheSize && |c.ll| <= c.cacheSize + 1 ==> |r.ll| <= c.cacheSize
  {
    SizeTrim(ExpirySweep(c, now))
  }

  /**
   * What `Add` does once the sweep is done: the key's entry is moved to the
   * head with the new value and a fresh expiry, or, when the key is absent,
   * a new entry is pushed at the head and recorded in the map.
   */
  function Upsert<K(==), V>(s: Cache<K, V>, key: K, value: V, now: int): (r: Cache<K, V>)
    requires s.Built?
    ensures && r.Built?
            && r.cacheSize == s.cacheSize && r.recordTTL == s.recordTTL
            && 0 < |r.ll| && r.ll[0] == Entry(key, now + s.recordTTL, value)
            && key in r.index && r.index[key] == r.ll[0]
            && |r.ll| <= |s.ll| + 1
  {
    var e := Entry(key, now + s.recordTTL, value);
    if key in s.index then
      // MoveToFront, then refresh the expiry and replace the value
      s.(ll := [e] + Without(s.ll, key), index := s.index[key := e])
    else
      // PushFront
      s.(ll := [e] + s.ll, index := s.index[key := e])
  }

  /**
   * What `Get` does once the sweep is done: a key in the map has its expiry
   * refreshed, is moved to the head and hits; any other key misses and
   * leaves the cache as it is.
   */
  function Touch<K(==), V>(s: Cache<K, V>, key: K, now: int): (r: (Cache<K, V>, Lookup<V>))
    requires s.Built?
    ensures r.1.Hit? <==> key in s.index
    ensures r.1.Miss? ==> r.0 == s
    ensures r.1.Hit? ==> && r.0.Built?
                         && r.0.cacheSize == s.cacheSize && r.0.recordTTL == s.recordTTL
                         && 0 < |r.0.ll| && r.1.value == s.index[key].value
                         && r.0.ll[0] == s.index[key].(expiry := now + s.recordTTL)
                         && key in r.0.index && r.0.index[key] == r.0.ll[0]
                         && |r.0.ll| <= |s.ll| + 1
  {
    if key in s.index then
      var e := s.index[key].(expiry := now + s.recordTTL);
      (s.(ll := [e] + Without(s.ll, key), index := s.index[key := e]), Hit(e.value))
    else (s, Miss)
  }

  /**
   * `Add`: on a nil map nothing happens; otherwise the sweep runs first and
   * then the key is inserted or updated.
   */
  function Add<K(==), V>(c: Cache<K, V>, key: K, value: V, now: int): (r: Cache<K, V>)
    ensures c.Unbuilt? ==> r.Unbuilt?
    ensures c.Built? ==> && r.Built?
                         && r.cacheSize == c.cacheSize && r.recordTTL == c.recordTTL
                         && 0 < |r.ll| && r.ll[0] == Entry(key, now + c.recordTTL, value)
                         && key in r.index && r.index[key] == r.ll[0]
                         && |r.ll| <= |c.ll| + 1
  {
    if c.Unbuilt? then c else Upsert(Sweep(c, now), key, value, now)
  }

  /**
   * `Get`: on a nil map it misses at once; otherwise the sweep runs first
   * and then the key is looked up.
   */
  function Get<K(==), V>(c: Cache<K, V>, key: K, now: int): (r: (Cache<K, V>, Lookup<V>))
    ensures c.Unbuilt? ==> r == (c, Miss)
    ensures c.Built? ==> (r.1.Hit? <==> key in Sweep(c, now).index)
    ensures c.Built? && r.1.Miss? ==> r.0 == Sweep(c, now)
    ensures c.Built? && r.1.Hit? ==>
              var e := Sweep(c, now).index[key];
              && r.1 == Hit(e.value)
              && r.0.Built? && 0 < |r.0.ll| && r.0.ll[0] == e.(expiry := now + c.recordTTL)
    ensures r.1.Hit? ==> && r.0.Built?
                         && r.0.cacheSize == c.cacheSize && r.0.recordTTL == c.recordTTL
                         && 0 < |r.0.ll| && key in r.0.index && r.0.index[key] == r.0.ll[0]
  {
    if c.Unbuilt? then (c, Miss) else Touch(Sweep(c, now), key, now)
  }

  /**
   * The two loops of `checkSizeAndExpiredRecords` as written, walking a
   * position from the tail; position 0 stands for a nil element. After a
   * removal the walk ends, since `Prev` of a removed element is nil.
   */
  method CheckSizeAndExpiredRecords<K(==), V>(c: Cache<K, V>, now: int) returns (r: Cache<K, V>)
    requires c.Built?
    ensures r == Sweep(c, now)
  {
    var ll, index := c.ll, c.index;
    var element := |ll|;
    while element > 0
      invariant 0 <= element <= |ll|
      invariant || (ll == c.ll && index == c.index
                    && forall j :: element <= j < |c.ll| ==> !Expired(c.ll[j], now))
                || (element == 0 && c.(ll := ll, index := index) == ExpirySweep(c, now))
      decreases element
    {
      var e := ll[element - 1];
      if Expired(e, now) {
        ll := RemoveAt(ll, element - 1);
        index := index - {e.key};
        element := 0;
      } else {
        element := element - 1;
      }
    }
    ghost var swept := c.(ll := ll, index := index);
    element := |ll|;
    while element > 0 && |ll| > c.cacheSize
      invariant || (element == |ll| && ll == swept.ll && index == swept.index)
                || (element == 0 && c.(ll := ll, index := index) == SizeTrim(swept))
      decreases element
    {
      var e := ll[element - 1];
      ll := ll[..element - 1];
      index := index - {e.key};
      element := 0;
    }
    r := c.(ll := ll, index := index);
  }
}

=== FILE: store.dfy ===
/**
 * The store facade of internal/cache/store.go: an `InMemoryStore` owns one
 * cache whose keys are strings and forwards both of its operations to it.
 */
module CacheStore {
  import opened LruCache
  import opened CacheLemmas

  datatype InMemoryStore<V> = InMemoryStore(cache: Cache<string, V>)

  /** `NewStore`: a store owning a cache made by `New` with the same settings. */
  function NewStore<V>(cacheSize: int, recordTTL: int): (s: InMemoryStore<V>)
    ensures s.cache == New(cacheSize, recordTTL)
  {
    InMemoryStore(New(cacheSize, recordTTL))
  }

  /** `StoreRecord` has exactly the effect of `Add` on the owned cache. */
  function StoreRecord<V>(s: InMemoryStore<V>, key: string, value: V, now: int): (r: InMemoryStore<V>)
    ensures r.cache == Add(s.cache, key, value, now)
  {
    InMemoryStore(Add(s.cache, key, value, now))
  }

  /** `GetRecord` returns what `Get` returns, and keeps what `Get` did to the cache. */
  function GetRecord<V>(s: InMemoryStore<V>, key: string, now: int): (r: (InMemoryStore<V>, Lookup<V>))
    ensures r.0.cache == Get(s.cache, key, now).0 && r.1 == Get(s.cache, key, now).1
  {
    var (c, found) := Get(s.cache, key, now);
    (InMemoryStore(c), found)
  }

  /* ---------- The scenarios of internal/cache/store_test.go ---------- */

  lemma NewStoreSettings()
    ensures NewStore<int>(1, Second).cache.cacheSize == 1
    ensures NewStore<int>(1, Second).cache.recordTTL == Second
  {
  }

  /**
   * Three distinct keys stored within the time-to-live give lengths 1, 2
   * and 3, each key holding its value.
   */
  lemma StoreThreeRecords(t1: int, t2: int, t3: int)
    requires t1 <= t2 <= t3 <= t1 + 100 * Millisecond
    ensures var s1 := StoreRecord(NewStore<int>(100, 100 * Millisecond), "1", 2, t1);
            var s2 := StoreRecord(s1, "3", 4, t2);
            var s3 := StoreRecord(s2, "5", 6, t3);
            && |s1.cache.ll| == 1 && "1" in s1.cache.index && s1.cache.index["1"].value == 2
            && |s2.cache.ll| == 2 && "3" in s2.cache.index && s2.cache.index["3"].value == 4
            && |s3.cache.ll| == 3 && "5" in s3.cache.index && s3.cache.index["5"].value == 6
  {
    var ttl := 100 * Millisecond;
    var s0 := NewStore<int>(100, ttl);
    var s1 := StoreRecord(s0, "1", 2, t1);
    QuietSweep(s0.cache, t1);
    assert s1.cache.ll == [Entry("1", t1 + ttl, 2)];
    var s2 := StoreRecord(s1, "3", 4, t2);
    QuietSweep(s1.cache, t2);
    assert s2.cache.ll == [Entry("3", t2 + ttl, 4), Entry("1", t1 + ttl, 2)];
    QuietSweep(s2.cache, t3);
  }

  /** A record read back within the time-to-live is found with its value. */
  lemma GetAfterStore(t1: int, t2: int)
    requires t1 <= t2 <= t1 + 100 * Millisecond
    ensures GetRecord(StoreRecord(NewStore<int>(100, 100 * Millisecond), "1", 2, t1), "1", t2).1 == Hit(2)
  {
    var s0 := NewStore<int>(100, 100 * Millisecond);
    QuietSweep(s0.cache, t1);
    QuietSweep(StoreRecord(s0, "1", 2, t1).cache, t2);
  }

  /**
   * Sliding expiry with a 200 ms time-to-live: a read within 200 ms of the
   * write hits and refreshes the expiry; a read more than 200 ms after that
   * read misses.
   */
  lemma RecordTTL(t0: int, t1: int, t2: int)
    requires t0 <= t1 <= t0 + 200 * Millisecond && t1 + 200 * Millisecond < t2
    ensures var s1 := StoreRecord(NewStore<int>(100, 200 * Millisecond), "1", 2, t0);
            var (s2, first) := GetRecord(s1, "1", t1);
            && first == Hit(2)
            && GetRecord(s2, "1", t2).1 == Miss
  {
    var ttl := 200 * Millisecond;
    var s0 := NewStore<int>(100, ttl);
    QuietSweep(s0.cache, t0);
    var s1 := StoreRecord(s0, "1", 2, t0);
    assert s1.cache.ll == [Entry("1", t0 + ttl, 2)];
    QuietSweep(s1.cache, t1);
    var s2 := GetRecord(s1, "1", t1).0;
    assert s2.cache.ll == [Entry("1", t1 + ttl, 2)];
    assert LastExpired(s2.cache.ll, t2) == Some(0);
  }

  /**
   * Size 1: after "1" is written and read, writing "2" leaves both entries
   * until the next sweep; the read of "2" evicts "1" from the tail, so "2"
   * is found and "1" is not.
   */
  lemma CacheSizeOne(t0: int, t1: int, t2: int, t3: int, t4: int)
    requires t0 <= t1 <= t2 <= t3 <= t4 <= t0 + 100 * Millisecond
    ensures var s0 := NewStore<int>(1, 100 * Millisecond);
            var s1 := InMemoryStore(Add(s0.cache, "1", 2, t0));
            var (s2, read1) := GetRecord(s1, "1", t1);
            var s3 := StoreRecord(s2, "2", 3, t2);
            var (s4, read2) := GetRecord(s3, "2", t3);
            && read1 == Hit(2)
            && |s3.cache.ll| == 2
            && read2 == Hit(3)
            && GetRecord(s4, "1", t4).1 == Miss
  {
    var ttl := 100 * Millisecond;
    var s0 := NewStore<int>(1, ttl);
    QuietSweep(s0.cache, t0);
    var s1 := InMemoryStore(Add(s0.cache, "1", 2, t0));
    assert s1.cache.ll == [Entry("1", t0 + ttl, 2)];
    QuietSweep(s1.cache, t1);
    var s2 := GetRecord(s1, "1", t1).0;
    assert s2.cache.ll == [Entry("1", t1 + ttl, 2)];
    QuietSweep(s2.cache, t2);
    var s3 := StoreRecord(s2, "2", 3, t2);
    assert s3.cache.ll == [Entry("2", t2 + ttl, 3), Entry("1", t1 + ttl, 2)];
    assert ExpirySweep(s3.cache, t3) == s3.cache;
    var s4 := GetRecord(s3, "2", t3).0;
    assert s4.cache.ll == [Entry("2", t3 + ttl, 3)];
    assert s4.cache.index == map["2" := Entry("2", t3 + ttl, 3)];
  }
}

=== FILE: sweep_finding.dfy ===
/**
 * Each loop of `checkSizeAndExpiredRecords` in internal/cache/cache.go
 * takes `Prev` of an element it has just removed, which is nil, so a sweep
 * removes at most one expired entry. When two entries have expired, the one
 * nearer the head survives the sweep, and a `Get` of its key hits and
 * revives it. This module shows that with the cache as written, and then
 * proves, of a sweep whose loops go on past a removal (the intended walk,
 * taking `Prev` before `Remove`), that a read never returns an expired entry.
 */
module SweepFinding {
  import opened LruCache
  import opened CacheLemmas

  /* ---------- The sweep as written ---------- */

  /**
   * Of two expired entries, the one nearer the head is still there after the
   * sweep, and a `Get` of its key hits.
   */
  lemma ExpiredEntryHits<K, V>(c: Cache<K, V>, i: nat, j: nat, now: int)
    requires Consistent(c) && 0 <= c.cacheSize && |c.ll| <= c.cacheSize + 1
    requires i < j < |c.ll| && Expired(c.ll[i], now) && Expired(c.ll[j], now)
    ensures Get(c, c.ll[i].key, now).1 == Hit(c.ll[i].value)
  {
    var key := c.ll[i].key;
    var x := ExpirySweep(c, now);
    var t :| TailmostExpired(c.ll, t, now) && x.ll == RemoveAt(c.ll, t)
             && x.index == c.index - {c.ll[t].key};
    assert t >= j;
    assert c.ll[t].key != key;
    assert key in x.index && x.index[key] == c.ll[i];
    assert SizeTrim(x) == x;
  }

  /** The same, on a concrete two-entry cache read at instant 10. */
  lemma ExpiredEntryHitsExample()
    ensures var c := Built(10, Minute, [Entry("a", 5, 1), Entry("b", 3, 2)],
                           map["a" := Entry("a", 5, 1), "b" := Entry("b", 3, 2)]);
            && Expired(c.ll[0], 10) && Expired(c.ll[1], 10)
            && Get(c, "a", 10).1 == Hit(1)
  {
    var c := Built(10, Minute, [Entry("a", 5, 1), Entry("b", 3, 2)],
                   map["a" := Entry("a", 5, 1), "b" := Entry("b", 3, 2)]);
    assert KeySet(c.ll) == {"a", "b"} by {
      assert c.ll[0].key == "a" && c.ll[1].key == "b";
    }
    ExpiredEntryHits(c, 0, 1, 10);
  }

  /* ---------- The intended sweep ---------- */

  /** The entries of `ll` that have not expired at `now`, in their order. */
  function Live<K, V>(ll: seq<Entry<K, V>>, now: int): (r: seq<Entry<K, V>>)
    ensures |r| <= |ll|
    ensures forall j :: 0 <= j < |r| ==> !Expired(r[j], now)
    decreases |ll|
  {
    if |ll| == 0 then []
    else if Expired(ll[0], now) then Live(ll[1..], now)
    else [ll[0]] + Live(ll[1..], now)
  }

  /** The keys of the entries of `ll` that have expired at `now`. */
  function ExpiredKeys<K, V>(ll: seq<Entry<K, V>>, now: int): set<K> {
    set i | 0 <= i < |ll| && Expired(ll[i], now) :: ll[i].key
  }

  lemma {:induction false} LiveAppend<K, V>(a: seq<Entry<K, V>>, b: seq<Entry<K, V>>, now: int)
    ensures Live(a + b, now) == Live(a, now) + Live(b, now)
    decreases |a|
  {
    if |a| == 0 {
      assert a + b == b;
    } else {
      assert (a + b)[0] == a[0];
      assert (a + b)[1..] == a[1..] + b;
      LiveAppend(a[1..], b, now);
    }
  }

  /** Taking out an expired entry does not change the live entries. */
  lemma LiveRemoveExpired<K, V>(ll: seq<Entry<K, V>>, i: nat, now: int)
    requires i < |ll| && Expired(ll[i], now)
    ensures Live(RemoveAt(ll, i), now) == Live(ll, now)
  {
    var rest := [ll[i]] + ll[i + 1..];
    assert ll == ll[..i] + rest;
    assert rest[0] == ll[i] && rest[1..] == ll[i + 1..];
    LiveAppend(ll[..i], rest, now);
    LiveAppend(ll[..i], ll[i + 1..], now);
  }

  lemma {:induction false} LiveAllLive<K, V>(ll: seq<Entry<K, V>>, now: int)
    requires forall j :: 0 <= j < |ll| ==> !Expired(ll[j], now)
    ensures Live(ll, now) == ll
    decreases |ll|
  {
    if |ll| > 0 {
      LiveAllLive(ll[1..], now);
      assert ll == [ll[0]] + ll[1..];
    }
  }

  lemma ExpiredKeysRemove<K, V>(ll: seq<Entry<K, V>>, i: nat, now: int)
    requires i < |ll| && Expired(ll[i], now)
    ensures ExpiredKeys(ll, now) == ExpiredKeys(RemoveAt(ll, i), now) + {ll[i].key}
  {
    var r := RemoveAt(ll, i);
    forall k | k in ExpiredKeys(ll, now) ensures k in ExpiredKeys(r, now) + {ll[i].key} {
      var j :| 0 <= j < |ll| && Expired(ll[j], now) && ll[j].key == k;
      if j < i {
        assert r[j] == ll[j];
      } else if j > i {
        assert r[j - 1] == ll[j];
      }
    }
    forall k | k in ExpiredKeys(r, now) ensures k in ExpiredKeys(ll, now) {
      var j :| 0 <= j < |r| && Expired(r[j], now) && r[j].key == k;
      if j < i {
        assert r[j] == ll[j];
      } else {
        assert r[j] == ll[j + 1];
      }
    }
  }

  /** The keys cut off from position `n` on are those cut off without the tail, plus the tail's. */
  lemma SuffixKeysDropLast<K, V>(ll: seq<Entry<K, V>>, n: nat)
    requires n < |ll|
    ensures KeySet(ll[n..]) == KeySet(ll[..|ll| - 1][n..]) + {ll[|ll| - 1].key}
  {
    var u, t := ll[n..], ll[..|ll| - 1][n..];
    assert |u| == |t| + 1;
    forall k | k in KeySet(u) ensures k in KeySet(t) + {ll[|ll| - 1].key} {
      var j :| 0 <= j < |u| && u[j].key == k;
      if j < |t| {
        assert t[j] == u[j];
      }
    }
    forall k | k in KeySet(t) ensures k in KeySet(u) {
      var j :| 0 <= j < |t| && t[j].key == k;
      assert t[j] == u[j];
    }
  }

  /**
   * The expiry loop walking on after each removal: the list keeps exactly
   * the live entries, in their order, and the map loses exactly the keys of
   * the expired ones.
   */
  function ExpireAll<K(==), V>(c: Cache<K, V>, now: int): (r: Cache<K, V>)
    requires c.Built?
    ensures r.Built? && r.cacheSize == c.cacheSize && r.recordTTL == c.recordTTL
    ensures r.ll == Live(c.ll, now)
    ensures r.index == c.index - ExpiredKeys(c.ll, now)
    ensures forall j :: 0 <= j < |r.ll| ==> !Expired(r.ll[j], now)
    ensures forall k :: k in r.index ==> k in c.index && r.index[k] == c.index[k]
    decreases |c.ll|
  {
    match LastExpired(c.ll, now)
    case None =>
      LiveAllLive(c.ll, now);
      assert ExpiredKeys(c.ll, now) == {};
      c
    case Some(i) =>
      var x := ExpirySweep(c, now);
      LiveRemoveExpired(c.ll, i, now);
      ExpiredKeysRemove(c.ll, i, now);
      ExpireAll(x, now)
  }

  /**
   * The size loop walking on after each removal: the list is cut to its
   * first `cacheSize` entries (none for a negative size), and the map loses
   * the keys of the entries cut off.
   */
  function TrimAll<K(==), V>(c: Cache<K, V>): (r: Cache<K, V>)
    requires c.Built?
    ensures r.Built? && r.cacheSize == c.cacheSize && r.recordTTL == c.recordTTL
    ensures |r.ll| == if |c.ll| <= c.cacheSize then |c.ll| else if c.cacheSize < 0 then 0 else c.cacheSize
    ensures |r.ll| <= c.cacheSize || |r.ll| == 0
    ensures |r.ll| <= |c.ll| && r.ll == c.ll[..|r.ll|]
    ensures r.index == c.index - KeySet(c.ll[|r.ll|..])
    ensures forall k :: k in r.index ==> k in c.index && r.index[k] == c.index[k]
    decreases |c.ll|
  {
    if 0 < |c.ll| && c.cacheSize < |c.ll| then
      var x := SizeTrim(c);
      var r := TrimAll(x);
      SuffixKeysDropLast(c.ll, |r.ll|);
      r
    else
      assert KeySet(c.ll[|c.ll|..]) == {};
      c
  }

  /**
   * The sweep with both loops walking on: the first `cacheSize` live
   * entries, in their order, with the map cut to match.
   */
  function SweepIntended<K(==), V>(c: Cache<K, V>, now: int): (r: Cache<K, V>)
    requires c.Built?
    ensures r.Built? && r.cacheSize == c.cacheSize && r.recordTTL == c.recordTTL
    ensures var live := Live(c.ll, now);
            && |r.ll| == (if |live| <= c.cacheSize then |live| else if c.cacheSize < 0 then 0 else c.cacheSize)
            && r.ll == live[..|r.ll|]
    ensures forall j :: 0 <= j < |r.ll| ==> !Expired(r.ll[j], now)
    ensures forall k :: k in r.index ==> k in c.index && r.index[k] == c.index[k]
  {
    TrimAll(ExpireAll(c, now))
  }

  /** `Get` over the intended sweep. */
  function GetIntended<K(==), V>(c: Cache<K, V>, key: K, now: int): (r: (Cache<K, V>, Lookup<V>))
    ensures c.Unbuilt? ==> r == (c, Miss)
    ensures c.Built? ==> (r.1.Hit? <==> key in SweepIntended(c, now).index)
    ensures c.Built? && r.1.Miss? ==> r.0 == SweepIntended(c, now)
    ensures r.1.Hit? ==> key in c.index && r.1.value == c.index[key].value
  {
    if c.Unbuilt? then (c, Miss) else Touch(SweepIntended(c, now), key, now)
  }

  lemma {:induction false} ExpireAllKeepsConsistent<K, V>(c: Cache<K, V>, now: int)
    requires Consistent(c)
    ensures Consistent(ExpireAll(c, now))
    decreases |c.ll|
  {
    var x := ExpirySweep(c, now);
    if |x.ll| != |c.ll| {
      ExpirySweepKeepsConsistent(c, now);
      ExpireAllKeepsConsistent(x, now);
    }
  }

  lemma {:induction false} TrimAllKeepsConsistent<K, V>(c: Cache<K, V>)
    requires Consistent(c)
    ensures Consistent(TrimAll(c))
    decreases |c.ll|
  {
    var x := SizeTrim(c);
    if |x.ll| != |c.ll| {
      SizeTrimKeepsConsistent(c);
      TrimAllKeepsConsistent(x);
    }
  }

  /**
   * The intended property, both ways: a read that hits returns an entry the
   * cache held for that key and that had not expired, and the sweep leaves
   * at most `cacheSize` entries; conversely, when the live entries fit in
   * `cacheSize`, a read of a key whose entry has not expired hits with its
   * value.
   */
  lemma IntendedGetNeverStale<K, V>(c: Cache<K, V>, key: K, now: int)
    requires Consistent(c)
    ensures var r := GetIntended(c, key, now);
            && (r.1.Hit? ==> key in c.index && !Expired(c.index[key], now)
                             && r.1.value == c.index[key].value)
            && (0 <= c.cacheSize ==> |SweepIntended(c, now).ll| <= c.cacheSize)
            && (&& 0 <= c.cacheSize && |ExpireAll(c, now).ll| <= c.cacheSize
                && key in c.index && !Expired(c.index[key], now)
                ==> r.1 == Hit(c.index[key].value))
  {
    var e := ExpireAll(c, now);
    ExpireAllKeepsConsistent(c, now);
    TrimAllKeepsConsistent(e);
    var s := TrimAll(e);
    if key in s.index {
      assert key in KeySet(s.ll);
      var p := PositionOf(s.ll, key);
      assert s.ll[p] == e.ll[p];
    }
    if 0 <= c.cacheSize && |e.ll| <= c.cacheSize && key in c.index && !Expired(c.index[key], now) {
      forall i | 0 <= i < |c.ll| && c.ll[i].key == key ensures !Expired(c.ll[i], now) {
        assert c.index[key] == c.ll[i];
      }
      assert key !in ExpiredKeys(c.ll, now);
      assert key in e.index;
      assert KeySet(e.ll[|e.ll|..]) == {};
      assert s.index == e.index;
    }
  }
}

=== FILE: validators.dfy ===
/**
 * The operand check of internal/utils/validators.go. An operand is valid
 * when it is non-empty and matches, as a whole, the integer pattern or the
 * float pattern; `IsXYValid` reports which of the two operands are not.
 *
 * The two patterns are recognised by hand-written scanners, each proved to
 * accept exactly the language the pattern denotes, stated group by group.
 */
module Validators {

  predicate IsDigit(c: char) {
    '0' <= c <= '9'
  }

  predicate IsSign(c: char) {
    c == '+' || c == '-'
  }

  predicate IsExponentMark(c: char) {
    c == 'e' || c == 'E'
  }

  predicate AllDigits(s: string) {
    forall i :: 0 <= i < |s| ==> IsDigit(s[i])
  }

  /* ---------- The languages of the patterns ---------- */

  /** One or more digits, after an optional sign. */
  ghost predicate SignedDigits(s: string) {
    || (0 < |s| && AllDigits(s))
    || (1 < |s| && IsSign(s[0]) && AllDigits(s[1..]))
  }

  /** The float pattern's first group, which may be absent: a signed digit run. */
  ghost predicate OptIntPart(s: string) {
    |s| == 0 || SignedDigits(s)
  }

  /** The second group, which may be absent: a point and zero or more digits. */
  ghost predicate OptFraction(s: string) {
    |s| == 0 || (s[0] == '.' && AllDigits(s[1..]))
  }

  /** The third group, which may be absent: `e` or `E`, then a signed digit run. */
  ghost predicate OptExponent(s: string) {
    |s| == 0 || (IsExponentMark(s[0]) && SignedDigits(s[1..]))
  }

  /** Cutting `s` at `i` and `j` gives the three groups of the float pattern. */
  ghost predicate FloatSplit(s: string, i: int, j: int) {
    && 0 <= i <= j <= |s|
    && OptIntPart(s[..i]) && OptFraction(s[i..j]) && OptExponent(s[j..])
  }

  /** The whole of `s` matches the float pattern. */
  ghost predicate InFloatLanguage(s: string) {
    exists i, j :: FloatSplit(s, i, j)
  }

  /** A digit run without a leading zero: one or more digits, and a leading `0` only alone. */
  ghost predicate CanonicalDigits(u: string) {
    0 < |u| && AllDigits(u) && (u[0] == '0' ==> |u| == 1)
  }

  /** Cutting `s` at `k` gives the integer pattern's optional sign and its digit run. */
  ghost predicate IntSplit(s: string, k: int) {
    && 0 <= k <= 1 && k <= |s|
    && (k == 1 ==> IsSign(s[0]))
    && CanonicalDigits(s[k..])
  }

  /** The whole of `s` matches the integer pattern. */
  ghost predicate InIntLanguage(s: string) {
    exists k :: IntSplit(s, k)
  }

  /* ---------- The recognisers ---------- */

  /**
   * The integer pattern: an optional sign, then either a lone `0` or a
   * non-zero digit followed by any digits.
   */
  predicate MatchesInt(s: string) {
    var u := if 0 < |s| && IsSign(s[0]) then s[1..] else s;
    u == "0" || (0 < |u| && '1' <= u[0] <= '9' && AllDigits(u[1..]))
  }

  /** Where the run of digits that starts at `i` ends. */
  function DigitsEnd(s: string, i: nat): (j: nat)
    requires i <= |s|
    ensures i <= j <= |s|
    ensures forall k :: i <= k < j ==> IsDigit(s[k])
    ensures j < |s| ==> !IsDigit(s[j])
    decreases |s| - i
  {
    if i < |s| && IsDigit(s[i]) then DigitsEnd(s, i + 1) else i
  }

  /** From position `k` to the end, `s` is a signed digit run. */
  predicate SignedDigitsFrom(s: string, k: nat)
    requires k <= |s|
  {
    var b := if k < |s| && IsSign(s[k]) then k + 1 else k;
    b < |s| && DigitsEnd(s, b) == |s|
  }

  /**
   * The float pattern, scanned greedily from the left: integer part (a sign
   * must be followed by a digit), then a fraction if a point comes next,
   * then, unless the input is used up, an exponent that must reach the end.
   */
  predicate MatchesFloat(s: string) {
    var signed := 0 < |s| && IsSign(s[0]);
    var a := if signed then 1 else 0;
    var i := DigitsEnd(s, a);
    if signed && i == a then false
    else
      var j := if i < |s| && s[i] == '.' then DigitsEnd(s, i + 1) else i;
      j == |s| || (IsExponentMark(s[j]) && SignedDigitsFrom(s, j + 1))
  }

  /** `isIntOrFloat`: the empty string is rejected before either pattern is tried. */
  predicate IsIntOrFloat(s: string) {
    s != "" && (MatchesInt(s) || MatchesFloat(s))
  }

  /* ---------- The recognisers accept exactly the patterns' languages ---------- */

  lemma {:induction false} DigitsEndAt(s: string, a: nat, i: nat)
    requires a <= i <= |s|
    requires forall k :: a <= k < i ==> IsDigit(s[k])
    requires i == |s| || !IsDigit(s[i])
    ensures DigitsEnd(s, a) == i
    decreases i - a
  {
    if a < i {
      DigitsEndAt(s, a + 1, i);
    }
  }

  lemma SignedDigitsFromIsSignedDigits(s: string, k: nat)
    requires k <= |s|
    ensures SignedDigitsFrom(s, k) <==> SignedDigits(s[k..])
  {
    var t := s[k..];
    var b := if k < |s| && IsSign(s[k]) then k + 1 else k;
    if SignedDigits(t) {
      assert forall m :: b <= m < |s| ==> IsDigit(s[m]) by {
        forall m | b <= m < |s| ensures IsDigit(s[m]) {
          assert s[m] == t[m - k];
          if b == k + 1 { assert t[1..][m - k - 1] == t[m - k]; }
        }
      }
      DigitsEndAt(s, b, |s|);
    }
    if SignedDigitsFrom(s, k) {
      if b == k + 1 {
        assert t[1..] == s[k + 1..];
      }
    }
  }

  /** Everything the float scanner accepts matches the float pattern. */
  lemma FloatScanSound(s: string)
    requires MatchesFloat(s)
    ensures InFloatLanguage(s)
  {
    var signed := 0 < |s| && IsSign(s[0]);
    var a := if signed then 1 else 0;
    var i := DigitsEnd(s, a);
    var j := if i < |s| && s[i] == '.' then DigitsEnd(s, i + 1) else i;
    if 0 < i && !signed {
      assert AllDigits(s[..i]);
    }
    if signed {
      assert s[..i][1..] == s[1..i];
    }
    assert OptIntPart(s[..i]);
    if i < j {
      assert s[i..j][1..] == s[i + 1..j];
    }
    assert OptFraction(s[i..j]);
    if j < |s| {
      SignedDigitsFromIsSignedDigits(s, j + 1);
      assert s[j..][1..] == s[j + 1..];
    }
    assert FloatSplit(s, i, j);
  }

  /** In a split, the exponent group is what the scanner checks at its end. */
  lemma ExponentScan(s: string, i0: nat, j0: nat)
    requires FloatSplit(s, i0, j0)
    ensures j0 < |s| ==> IsExponentMark(s[j0]) && SignedDigitsFrom(s, j0 + 1)
  {
    if j0 < |s| {
      assert s[j0..][0] == s[j0];
      assert s[j0..][1..] == s[j0 + 1..];
      SignedDigitsFromIsSignedDigits(s, j0 + 1);
    }
  }

  /** In a split, the fraction group ends where the scanner's fraction ends. */
  lemma FractionScan(s: string, i0: nat, j0: nat)
    requires FloatSplit(s, i0, j0)
    ensures i0 < |s| ==> s[i0] == '.' || IsExponentMark(s[i0])
    ensures j0 == if i0 < |s| && s[i0] == '.' then DigitsEnd(s, i0 + 1) else i0
  {
    ExponentScan(s, i0, j0);
    if i0 < j0 {
      assert s[i0..j0][0] == s[i0];
      forall k | i0 + 1 <= k < j0 ensures IsDigit(s[k]) {
        assert s[i0..j0][1..][k - i0 - 1] == s[k];
      }
      DigitsEndAt(s, i0 + 1, j0);
    }
  }

  /** In a split, the integer group ends where the scanner's integer part ends. */
  lemma IntPartScan(s: string, i0: nat, j0: nat)
    requires FloatSplit(s, i0, j0)
    ensures var signed := 0 < |s| && IsSign(s[0]);
            var a := if signed then 1 else 0;
            a <= |s| && DigitsEnd(s, a) == i0 && !(signed && i0 == a)
  {
    var signed := 0 < |s| && IsSign(s[0]);
    var a := if signed then 1 else 0;
    FractionScan(s, i0, j0);
    if i0 == 0 {
      DigitsEndAt(s, 0, 0);
    } else {
      assert s[..i0][0] == s[0];
      forall k | a <= k < i0 ensures IsDigit(s[k]) {
        assert s[..i0][k] == s[k];
        if signed { assert s[..i0][1..][k - 1] == s[k]; }
      }
      DigitsEndAt(s, a, i0);
    }
  }

  /** Everything that matches the float pattern is accepted by the scanner. */
  lemma FloatScanComplete(s: string, i0: nat, j0: nat)
    requires FloatSplit(s, i0, j0)
    ensures MatchesFloat(s)
  {
    IntPartScan(s, i0, j0);
    FractionScan(s, i0, j0);
    ExponentScan(s, i0, j0);
  }

  /** The float scanner decides the float pattern. */
  lemma MatchesFloatIsPattern(s: string)
    ensures MatchesFloat(s) <==> InFloatLanguage(s)
  {
    if MatchesFloat(s) {
      FloatScanSound(s);
    }
    if InFloatLanguage(s) {
      var i, j :| FloatSplit(s, i, j);
      FloatScanComplete(s, i, j);
    }
  }

  /** The integer scanner accepts exactly the whole matches of the integer pattern. */
  lemma MatchesIntIsPattern(s: string)
    ensures MatchesInt(s) <==> InIntLanguage(s)
  {
    var k := if 0 < |s| && IsSign(s[0]) then 1 else 0;
    var u := s[k..];
    if MatchesInt(s) {
      if u != "0" {
        assert u == [u[0]] + u[1..];
        forall i | 0 <= i < |u| ensures IsDigit(u[i]) {
          if 0 < i { assert u[i] == u[1..][i - 1]; }
        }
      }
      assert IntSplit(s, k);
    }
    if InIntLanguage(s) {
      var k0 :| IntSplit(s, k0);
      if k0 == 0 && 0 < |s| {
        assert IsDigit(s[0]);
      }
      assert k0 == k;
      if u[0] == '0' {
        assert u == "0";
      } else {
        forall i | 0 <= i < |u[1..]| ensures IsDigit(u[1..][i]) {
          assert u[1..][i] == u[i + 1];
        }
      }
    }
  }

  /** Every whole match of the integer pattern is a whole match of the float pattern. */
  lemma IntIsFloat(s: string)
    requires MatchesInt(s)
    ensures InFloatLanguage(s) && MatchesFloat(s)
  {
    if 0 < |s| && IsSign(s[0]) {
      assert s[1..] == "0" || AllDigits(s[1..]) by {
        var u := s[1..];
        if u != "0" {
          assert u == [u[0]] + u[1..];
        }
      }
    } else {
      if s != "0" {
        assert s == [s[0]] + s[1..];
      }
    }
    assert s[..|s|] == s;
    assert FloatSplit(s, |s|, |s|);
    MatchesFloatIsPattern(s);
  }

  /**
   * An operand is valid exactly when it is non-empty and matches the float
   * pattern; the integer pattern adds nothing.
   */
  lemma ValidOperand(s: string)
    ensures IsIntOrFloat(s) <==> s != "" && (MatchesInt(s) || InFloatLanguage(s))
    ensures IsIntOrFloat(s) <==> s != "" && InFloatLanguage(s)
    ensures IsIntOrFloat(s) <==> s != "" && (InIntLanguage(s) || InFloatLanguage(s))
  {
    MatchesFloatIsPattern(s);
    MatchesIntIsPattern(s);
    if MatchesInt(s) {
      IntIsFloat(s);
    }
  }

  /** The operands of the refused request in the handler tests. */
  lemma RejectedOperands()
    ensures !IsIntOrFloat("")
    ensures !IsIntOrFloat("1--") && !IsIntOrFloat("1..")
  {
    var s, t := "1--", "1..";
    assert !IsDigit(s[1..][0]);
    DigitsEndAt(s, 0, 1);
    DigitsEndAt(t, 0, 1);
    DigitsEndAt(t, 2, 2);
    assert !IsDigit(t[1..][0]);
  }

  /** Every group of the float pattern may be absent, so these are accepted. */
  lemma AcceptedOperands()
    ensures IsIntOrFloat(".") && IsIntOrFloat("e5") && IsIntOrFloat("-12.5E+3")
  {
    DigitsEndAt(".", 0, 0);
    DigitsEndAt(".", 1, 1);
    DigitsEndAt("e5", 0, 0);
    DigitsEndAt("e5", 1, 2);
    var f := "-12.5E+3";
    DigitsEndAt(f, 1, 3);
    DigitsEndAt(f, 4, 5);
    DigitsEndAt(f, 7, 8);
  }

  /* ---------- The messages ---------- */

  /** The two formats of `IsXYValid`'s errors. */
  const InvalidValue: string := "%s value: %s not valid number"
  const InvalidValues: string := "%s value: %s not valid number, %s value: %s not valid number"

  /** The one-operand format cut into its verbs and the literal text between them. */
  lemma InvalidValueSpelledOut()
    ensures InvalidValue == "%s" + " value: " + "%s" + " not valid number"
  {
  }

  /** The two-operand format is the one-operand format, a comma, and the one-operand format again. */
  lemma InvalidValuesSpelledOut()
    ensures InvalidValues == "%s" + " value: " + "%s" + " not valid number, " + InvalidValue
  {
    assert InvalidValues == InvalidValue + ", " + InvalidValue;
    InvalidValueSpelledOut();
    assert "%s value: %s not valid number" + ", " == "%s value: %s not valid number, ";
  }

  /** `fmt.Sprintf` for the `%s` verb: each `%s` is replaced by the next argument. */
  function Sprintf(format: string, args: seq<string>): string
    decreases |format|
  {
    if |format| == 0 then ""
    else if 2 <= |format| && format[0] == '%' && format[1] == 's' && 0 < |args| then
      args[0] + Sprintf(format[2..], args[1..])
    else
      [format[0]] + Sprintf(format[1..], args)
  }

  lemma {:induction false} SprintfLiteral(lit: string, rest: string, args: seq<string>)
    requires forall i :: 0 <= i < |lit| ==> lit[i] != '%'
    ensures Sprintf(lit + rest, args) == lit + Sprintf(rest, args)
    decreases |lit|
  {
    if 0 < |lit| {
      assert (lit + rest)[0] == lit[0];
      assert (lit + rest)[1..] == lit[1..] + rest;
      SprintfLiteral(lit[1..], rest, args);
      assert lit == [lit[0]] + lit[1..];
    } else {
      assert lit + rest == rest;
    }
  }

  lemma SprintfVerb(arg: string, rest: string, args: seq<string>)
    ensures Sprintf("%s" + rest, [arg] + args) == arg + Sprintf(rest, args)
  {
    assert ("%s" + rest)[2..] == rest;
    assert ([arg] + args)[1..] == args;
  }

  /** A format with two verbs: each takes its argument, the literal text stays. */
  lemma TwoVerbs(a: string, b: string, l1: string, l2: string, rest: string, args: seq<string>)
    requires forall i :: 0 <= i < |l1| ==> l1[i] != '%'
    requires forall i :: 0 <= i < |l2| ==> l2[i] != '%'
    ensures Sprintf("%s" + l1 + "%s" + l2 + rest, [a, b] + args) == a + l1 + b + l2 + Sprintf(rest, args)
  {
    assert "%s" + l1 + "%s" + l2 + rest == "%s" + (l1 + ("%s" + (l2 + rest)));
    assert [a, b] + args == [a] + ([b] + args);
    calc {
      Sprintf("%s" + (l1 + ("%s" + (l2 + rest))), [a] + ([b] + args));
    == { SprintfVerb(a, l1 + ("%s" + (l2 + rest)), [b] + args); }
      a + Sprintf(l1 + ("%s" + (l2 + rest)), [b] + args);
    == { SprintfLiteral(l1, "%s" + (l2 + rest), [b] + args); }
      a + (l1 + Sprintf("%s" + (l2 + rest), [b] + args));
    == { SprintfVerb(b, l2 + rest, args); }
      a + (l1 + (b + Sprintf(l2 + rest, args)));
    == { SprintfLiteral(l2, rest, args); }
      a + (l1 + (b + (l2 + Sprintf(rest, args))));
    }
  }

  /** The complaint about one operand: its name, its text, and that it is not a number. */
  function NotValid(name: string, v: string): string {
    name + " value: " + v + " not valid number"
  }

  lemma InvalidValueText(name: string, v: string)
    ensures Sprintf(InvalidValue, [name, v]) == NotValid(name, v)
  {
    InvalidValueSpelledOut();
    TwoVerbs(name, v, " value: ", " not valid number", "", []);
    assert InvalidValue + "" == InvalidValue;
    assert [name, v] + [] == [name, v];
  }

  lemma InvalidValuesText(n1: string, v1: string, n2: string, v2: string)
    ensures Sprintf(InvalidValues, [n1, v1, n2, v2]) == NotValid(n1, v1) + ", " + NotValid(n2, v2)
  {
    assert " not valid number, " == " not valid number" + ", ";
    TwoVerbs(n1, v1, " value: ", " not valid number, ", InvalidValue, [n2, v2]);
    InvalidValuesSpelledOut();
    assert [n1, v1, n2, v2] == [n1, v1] + [n2, v2];
    InvalidValueText(n2, v2);
  }

  /* ---------- IsXYValid ---------- */

  /** What `IsXYValid` returns: `Valid` is (true, nil), `Invalid(m)` is (false, an error reading m). */
  datatype Verdict = Valid | Invalid(message: string)

  /**
   * Both operands valid gives `Valid`; otherwise the message names exactly
   * the operands that are not valid, x before y.
   */
  function IsXYValid(x: string, y: string): (r: Verdict)
    ensures r.Valid? <==> IsIntOrFloat(x) && IsIntOrFloat(y)
    ensures !IsIntOrFloat(x) && !IsIntOrFloat(y) ==> r == Invalid(NotValid("x", x) + ", " + NotValid("y", y))
    ensures !IsIntOrFloat(x) && IsIntOrFloat(y) ==> r == Invalid(NotValid("x", x))
    ensures IsIntOrFloat(x) && !IsIntOrFloat(y) ==> r == Invalid(NotValid("y", y))
  {
    var validX := IsIntOrFloat(x);
    var validY := IsIntOrFloat(y);
    if !validX && !validY then
      InvalidValuesText("x", x, "y", y);
      Invalid(Sprintf(InvalidValues, ["x", x, "y", y]))
    else if !validX then
      InvalidValueText("x", x);
      Invalid(Sprintf(InvalidValue, ["x", x]))
    else if !validY then
      InvalidValueText("y", y);
      Invalid(Sprintf(InvalidValue, ["y", y]))
    else Valid
  }

  /** The message for x = "1--" and y = "1..", spelled out. */
  lemma BadOperandsText()
    ensures NotValid("x", "1--") + ", " + NotValid("y", "1..")
            == "x value: 1-- not valid number, y value: 1.. not valid number"
  {
    XText();
    YText();
    JoinText();
  }

  /*
   * XText, YText and JoinText split the literal-string equality of
   * BadOperandsText into pieces, since the whole of it is too expensive to
   * prove at once.
   */

  /** The message for the refused `x` operand. */
  lemma XText() ensures NotValid("x", "1--") == "x value: 1-- not valid number" {}
  /** The message for the refused `y` operand. */
  lemma YText() ensures NotValid("y", "1..") == "y value: 1.. not valid number" {}
  /** The two messages joined by `", "`. */
  lemma JoinText()
    ensures "x value: 1-- not valid number" + ", " + "y value: 1.. not valid number"
            == "x value: 1-- not valid number, y value: 1.. not valid number"
  {
    assert "x value: 1-- not valid number" + ", " == "x value: 1-- not valid number, ";
  }

  /** The request with x = "1--" and y = "1.." is refused, naming both operands. */
  lemma BadOperandsMessage()
    ensures IsXYValid("1--", "1..") == Invalid("x value: 1-- not valid number, y value: 1.. not valid number")
  {
    RejectedOperands();
    BadOperandsText();
  }
}
